=== FILE: README.md ===
# roa middleware core, in Dafny

A model of three pieces of the roa web framework (Rust):

- **The onion middleware chain** (`roa-core/src/middleware.rs`). Middlewares
  run in registration order around a terminal endpoint. Each one gets the
  per-request context and `next`, which runs the rest of the chain. Pre-logic
  runs outermost first, the endpoint runs once, and post-logic runs innermost
  first. Errors come back as values that a middleware propagates, recovers or
  observes.
  The model is a pure interpreter (`Middleware.Run`) over a list of
  middleware values:
  - the unit middleware `()`;
  - a descriptor (`Gate`) holding a pre-action, a post-action and an error
    policy: propagate (`next.await?`), recover-if-status, observe (the logger
    shape), or short-circuit (never call `next`);
  - an arbitrary function of the context and `next`, which is the blanket
    implementation for `Fn` values.

  Endpoints are `()`, a descriptor, or a function. The context holds:
  - the request;
  - the response;
  - the request-scoped store, a map from string to value, where `store` hands
    back the value it replaces;
  - a trace of the events the steps produced.
- **Response compression** (`roa/src/compress.rs`). After `next`, the
  negotiated coding selects a body encoder and a `Content-Encoding` value.
  That value is appended to the response headers.
- **Content-Type helpers** (`roa-body/src/content_type.rs`). The header is read
  and parsed. Other helpers give the pure type without parameters, look up the
  charset, and check the type against an expected one. Each has its 400 error
  paths.

They share one `Status` record (`Errors` module): code, message and expose
flag.

Files: `errors.dfy`, `http.dfy`, `context.dfy`, `middleware.dfy`,
`middleware_examples.dfy` (the chains the framework documents), `compress.dfy`,
`content_type.dfy`.

## Model

| member | source | states |
|---|---|---|
| Middleware.FunctionalMiddleware | roa-core/src/middleware.rs:60-71 | replacing a middleware by the plain function that calls its `handle` leaves the outcome of the whole chain unchanged |
| Middleware.FunctionalEndpoint | roa-core/src/middleware.rs:127-138 | replacing the endpoint by the plain function that calls it leaves the outcome of the whole chain unchanged |
| Middleware.UnitTransparent | roa-core/src/middleware.rs:140-147 | inserting the unit middleware anywhere in a chain changes neither result nor context: it only hands over to `next` |
| Middleware.UnitEndpoint | roa-core/src/middleware.rs:149-156 | with the unit endpoint, a chain of calling middlewares succeeds, and the context is exactly all pre-logic followed by all post-logic, with nothing in between |
| Middleware.OnionSuccess | roa-core/src/middleware.rs:158-198 | when the endpoint succeeds, the chain succeeds, and its context is: pre-logic in registration order, then the endpoint once, then post-logic innermost first |
| Middleware.OnionTrace | roa-core/src/middleware.rs:170-198 | with marker-only middlewares, the trace gains the pre markers in registration order, then the endpoint's markers, then the post markers in reverse registration order |
| Middleware.OnionError | roa-core/src/middleware.rs:224-231 | when every middleware does `next.await?`, an endpoint error comes back unchanged and no post-logic runs |
| Middleware.ShortCircuitCuts | roa-core/src/middleware.rs:158-163 | a middleware that does not await `next` cuts the chain: the middlewares after it and the endpoint have no effect on the outcome |
| Middleware.ShortCircuitAnswers | roa-core/src/middleware.rs:20-22 | a middleware that returns without awaiting `next` answers the request itself: the chain's outcome is that of the middlewares before it around an endpoint that runs its pre-logic and returns its own result, error included, and its post-logic never runs |
| Middleware.RecoverSelected | roa-core/src/middleware.rs:214-223 | a catching middleware in front of propagating ones turns an endpoint error with its status code into success and re-raises any other error unchanged |
| Context.Store | roa-core/src/middleware.rs:176-191 | `store` hands back `None` when the key was absent and the previous value otherwise; afterwards `load` of the key gives the new value and every other key loads what it did before |
| Context.StoreTwice | roa-core/src/middleware.rs:181-185 | a second `store` under a key hands back the first value, and the second value wins |
| MiddlewareExamples.StoreRoundTrip | roa-core/src/middleware.rs:166-198 | for `first`/`second`/`third`/`end` every `store` returns the value the example asserts, the endpoint loads "3", `first` finally loads "5", and the chain succeeds |
| MiddlewareExamples.MarkerOrder | roa-core/src/middleware.rs:170-198 | three marker middlewares around a marker endpoint give M1-pre, M2-pre, M3-pre, E, M3-post, M2-post, M1-post |
| MiddlewareExamples.CatchTeapot | roa-core/src/middleware.rs:205-232 | catch → rethrow → an endpoint raising `s`: the chain succeeds with the context untouched when `s` is a teapot, and fails with exactly `s` otherwise |
| MiddlewareExamples.LoggerKeepsResult | roa-core/src/middleware.rs:40-50 | a middleware that awaits `next`, logs and returns `next`'s result gives exactly `next`'s outcome: same result, same request, response and store, with its log line after everything inside it |
| Compress.Handle | roa/src/compress.rs:95-127 | an error from `next` is returned with the context untouched; a malformed Accept-Encoding gives an exposed 400 carrying the parser's message; otherwise the result is `Ok`, only the response changes, and exactly one `Content-Encoding` header is appended after the existing ones. It names the negotiated coding (gzip when none is stated), and the body is wrapped, at the configured level, by the encoder of that coding, or left as it is for identity |
| Compress.Select | roa/src/compress.rs:100-122 | no preference selects gzip; every other preference selects its own coding; the body is left untransformed exactly for identity; an encoder's output is always advertised by that encoder's own token |
| Compress.AdvertisedMatchesBody | roa/src/compress.rs:97-125 | after success, the body is unchanged exactly when identity was negotiated, and then "identity" is advertised. Otherwise the old body is wrapped once, at the configured level, by the encoder of the negotiated coding (gzip when none is stated), and that coding's token is advertised |
| Compress.NoPreferenceIsGzip | roa/src/compress.rs:101-105 | no stated preference and a gzip preference give identical outcomes: the body wrapped by the gzip encoder |
| Compress.OneContentEncodingAppended | roa/src/compress.rs:123-125 | every existing response header is kept in place, and the number of `Content-Encoding` values rises by exactly one |
| Compress.ChainErrorPassesThrough | roa/src/compress.rs:95-96 | placed in a chain, the middleware returns the rest of the chain's error and context unchanged |
| Compress.ChainRunsHandle | roa/src/compress.rs:93-95 | placed in a chain, the middleware behaves as `Compress::handle` with `next` being the rest of the chain |
| Compress.DefaultLevelReachesEncoder | roa/src/compress.rs:87-103 | with the default middleware, the encoder wrapping the body gets `Level::Default` |
| ContentType.InvalidValue | roa-body/src/content_type.rs:8-14 | an invalid value gives an exposed 400 whose message is exactly the cause, a newline, and "Content-Type value is invalid" |
| ContentType.FromHeaderValue | roa-body/src/content_type.rs:33-35 | the value is parsed only when it is visible ASCII; otherwise exactly the invalid-value 400 of the conversion error. `Ok` exactly when it is text and parses, and then it holds the parsed type; a parse failure is exactly the invalid-value 400 of the parser's message |
| ContentType.FromStr | roa-body/src/content_type.rs:69-74 | `Ok` with the parsed type exactly when the text parses; otherwise exactly the invalid-value 400 of the parser's message |
| ContentType.ContentTypeOf | roa-body/src/content_type.rs:20-35 | a missing header gives an exposed 400 "Header Content-Type not set". Any other failure is an exposed 400 ending "Content-Type value is invalid". The result is `Ok` exactly when the first Content-Type value is visible ASCII and parses, and then it holds the parsed type |
| ContentType.PureTypeCutsParams | roa-body/src/content_type.rs:37-46 | the text of the pure type is the text of the full type cut at its first parameter, so the `+suffix` is kept and every parameter is dropped |
| ContentType.PureTypeIdempotent | roa-body/src/content_type.rs:37-43 | taking the pure type of a pure type changes nothing |
| ContentType.Charset | roa-body/src/content_type.rs:48-50 | the result is the value of the first parameter named `charset` (in any ASCII case), and `None` exactly when there is none |
| ContentType.Expect | roa-body/src/content_type.rs:56-66 | `Ok` exactly when the pure type equals the expected type; otherwise an exposed 400 "content type unmatched. {other} != {pure}" |
| ContentType.ExpectIgnoresOnlyOwnParams | roa-body/src/content_type.rs:56-66 | an expected type that carries parameters is never matched, and a content type always matches its own pure type |
| ContentType.PureTypeJson | roa-body/src/content_type.rs:82-87 | "application/json; charset=utf-8; FOO=BAR" has pure type "application/json" and charset "utf-8" |
| ContentType.PureTypeSvg | roa-body/src/content_type.rs:83-87 | "image/svg+xml; FOO=BAR" has pure type "image/svg+xml" and no charset |

## Left out

- Async machinery: futures, pinning, `async_trait`, lifetimes, `Arc`, and the `Send`/`Sync`/`'static` bounds. `next` is a pure function of the context, so awaiting it twice simply runs the rest twice. Single use of `Next` is not modelled.
- Middleware.FunctionalMiddleware: proved only when the middlewares before the replaced one are descriptors or `()`. Dafny has no extensionality for function values, so an arbitrary function wrapper cannot be compared with the continuation it receives.
- Middleware.FunctionalEndpoint: proved only for chains of descriptors and `()`, for the same reason.
- Middleware.UnitTransparent: proved only when the middlewares before the insertion point are descriptors or `()`, for the same reason.
- Middleware.ShortCircuitCuts: proved only when the middlewares before the cutting one are descriptors or `()`, for the same reason.
- Middleware.ShortCircuitAnswers: proved only when the middlewares before the cutting one are descriptors or `()`, for the same reason.
- The store holds string values. The type-tagged `load::<T>` of roa-core's `context` module (`roa-core/src/context.rs`), and its failure on a wrong type, are not modelled.
- `throw!` comes from roa-core's `err` module (`roa-core/src/err.rs`) and is taken to raise a status with expose = true. This affects `ContentType.Expect` and the teapot endpoint.
- The logger's clock and `println!` are not modelled. The log line is a trace marker.
- `accept_encoding::parse` is a parameter from request headers to a negotiated coding or an error message. The gzip, zlib, brotli and zstd encoders are tags on the body, with their level. No bytes are compressed.
- The MIME string parser is a parameter from text to a parsed record or an error message. MIME equality is structural equality of records, not the mime crate's own comparison. Rendering prints `type/subtype[+suffix]` followed by `; name=value` per parameter.
- ContentType.PureType: the re-parse of the rendered essence and its `bug_report` error path are not modelled. The result is always the record without parameters.
- `ContentType::to_value`: left out. It only round-trips the text through the foreign header parser, and its failure is a bug report.
- Header names are compared exactly as strings. The model writes them in the lower-case form the http crate's `HeaderName` always stores, so it does not model case-insensitive lookup of a name such as "Content-Type".
- `HeaderValue::to_str` is modelled as accepting exactly tab and the bytes 32 to 126. Its error text is the http crate's fixed message.
- Router endpoints, multipart parsing, the file-serving tests and the crate re-export files: not part of this model.

=== FILE: compress.dfy ===
/**
 The `Compress` middleware: after the rest of the chain has produced a
 response, it negotiates a content coding from the request's
 Accept-Encoding header, wraps the response body in the matching streaming
 encoder and appends the coding to the response's Content-Encoding header.
 Header parsing and the encoders themselves are outside the model: parsing is
 a function the caller supplies, and encoders are tags on the body.
 */
module Compress {

  import opened Errors
  import opened Http
  import opened Context
  import opened Middleware

  /** The codings Accept-Encoding negotiation can choose. */
  datatype Encoding = Gzip | Deflate | Brotli | Zstd | Identity

  /**
   What parsing the request headers yields: the client's preferred coding
   (`None` when it states no preference), or the parser's complaint.
   */
  datatype Negotiation = Negotiated(best: Option<Encoding>) | Malformed(reason: string)

  /** `Encoding::to_header_value`: the coding's token. */
  function Token(e: Encoding): string {
    match e
    case Gzip => "gzip"
    case Deflate => "deflate"
    case Brotli => "br"
    case Zstd => "zstd"
    case Identity => "identity"
  }

  /** The token an encoder's output is labelled with on the wire. */
  function CoderToken(k: Coder): string {
    match k
    case GzipCoder => "gzip"
    case ZlibCoder => "deflate"
    case BrotliCoder => "br"
    case ZstdCoder => "zstd"
  }

  /** The middleware value; its field is the quality every encoder gets. */
  datatype Compress = Compress(level: Level)

  /** `Compress::default()`. */
  function DefaultCompress(): (c: Compress)
    ensures c.level == Default
  {
    Compress(Default)
  }

  /**
   The encoder the negotiated coding selects (`None`: the body stays as it
   is) and the coding to advertise. No preference is treated as gzip.
   */
  function Select(best: Option<Encoding>): (r: (Option<Coder>, Encoding))
    ensures r.0.None? <==> r.1 == Identity
    ensures r.0.Some? ==> CoderToken(r.0.value) == Token(r.1)
    ensures best.Some? ==> r.1 == best.value
    ensures best.None? ==> r.1 == Gzip
  {
    match best
    case None => (Some(GzipCoder), Gzip)
    case Some(Gzip) => (Some(GzipCoder), Gzip)
    case Some(Deflate) => (Some(ZlibCoder), Deflate)
    case Some(Brotli) => (Some(BrotliCoder), Brotli)
    case Some(Zstd) => (Some(ZstdCoder), Zstd)
    case Some(Identity) => (None, Identity)
  }

  /** `Compress::handle(ctx, next)`. */
  function Handle(c: Compress, parse: seq<Header> -> Negotiation, ctx: Ctx, next: Ctx -> Outcome): (r: Outcome)
    ensures next(ctx).result.Err? ==> r == next(ctx)
    ensures next(ctx).result.Ok? && parse(next(ctx).ctx.req.headers).Malformed? ==>
              r.result == Err(Status(BAD_REQUEST, parse(next(ctx).ctx.req.headers).reason, true))
              && r.ctx == next(ctx).ctx
    ensures next(ctx).result.Ok? && parse(next(ctx).ctx.req.headers).Negotiated? ==>
              var n := next(ctx).ctx;
              && r.result == Ok(())
              && r.ctx == n.(resp := r.ctx.resp)
              && |r.ctx.resp.headers| == |n.resp.headers| + 1
              && r.ctx.resp.headers[..|n.resp.headers|] == n.resp.headers
              && r.ctx.resp.headers[|n.resp.headers|].name == CONTENT_ENCODING
    ensures next(ctx).result.Ok? && parse(next(ctx).ctx.req.headers).Negotiated? ==>
              var n := next(ctx).ctx;
              var best := parse(n.req.headers).best;
              var want := if best.None? then Gzip else best.value;
              && r.ctx.resp.headers[|n.resp.headers|].value == FromStatic(Token(want))
              && (want == Identity ==> r.ctx.resp.body == n.resp.body)
              && (want != Identity ==> r.ctx.resp.body.Encoded? && CoderToken(r.ctx.resp.body.coder) == Token(want)
                                       && r.ctx.resp.body.level == c.level && r.ctx.resp.body.inner == n.resp.body)
  {
    var n := next(ctx);
    if n.result.Err? then n
    else
      match parse(n.ctx.req.headers)
      case Malformed(reason) => Outcome(Err(Status(BAD_REQUEST, reason, true)), n.ctx)
      case Negotiated(best) =>
        var (coder, advertised) := Select(best);
        var body := if coder.Some? then Encoded(coder.value, c.level, n.ctx.resp.body) else n.ctx.resp.body;
        var headers := n.ctx.resp.headers + [Header(CONTENT_ENCODING, FromStatic(Token(advertised)))];
        Outcome(Ok(()), n.ctx.(resp := Response(headers, body)))
  }

  /** The middleware as a chain element. */
  function AsMiddleware(c: Compress, parse: seq<Header> -> Negotiation): Middleware {
    Func((ctx: Ctx, next: Ctx -> Outcome) => Handle(c, parse, ctx, next))
  }

  /**
   On success the advertised Content-Encoding names the negotiated coding
   (gzip when the client stated no preference), and so does the encoder the
   body was wrapped in, at the configured level; it says "identity" exactly
   when the body was left as it was, which is when the client asked for
   identity.
   */
  lemma AdvertisedMatchesBody(c: Compress, parse: seq<Header> -> Negotiation, ctx: Ctx, next: Ctx -> Outcome)
    requires next(ctx).result.Ok? && parse(next(ctx).ctx.req.headers).Negotiated?
    ensures var before := next(ctx).ctx.resp;
            var after := Handle(c, parse, ctx, next).ctx.resp;
            var best := parse(next(ctx).ctx.req.headers).best;
            var advertised := after.headers[|before.headers|].value;
            var want := if best.None? then Gzip else best.value;
            && (best == Some(Identity) <==> after.body == before.body)
            && (best == Some(Identity) ==> advertised == FromStatic("identity"))
            && (best != Some(Identity) ==>
                  after.body.Encoded? && after.body.inner == before.body && after.body.level == c.level
                  && CoderToken(after.body.coder) == Token(want)
                  && advertised == FromStatic(Token(want)))
  {
  }

  /**
   No stated preference and an explicit gzip preference are handled alike:
   gzip encoder, "gzip" advertised.
   */
  lemma NoPreferenceIsGzip(c: Compress, parse1: seq<Header> -> Negotiation, parse2: seq<Header> -> Negotiation,
                           ctx: Ctx, next: Ctx -> Outcome)
    requires next(ctx).result.Ok?
    requires parse1(next(ctx).ctx.req.headers) == Negotiated(None)
    requires parse2(next(ctx).ctx.req.headers) == Negotiated(Some(Gzip))
    ensures Handle(c, parse1, ctx, next) == Handle(c, parse2, ctx, next)
    ensures Handle(c, parse1, ctx, next).ctx.resp.body == Encoded(GzipCoder, c.level, next(ctx).ctx.resp.body)
  {
  }

  /**
   Exactly one Content-Encoding value is added, and every header the response
   already had is kept in place: the header is appended, not replaced.
   */
  lemma OneContentEncodingAppended(c: Compress, parse: seq<Header> -> Negotiation, ctx: Ctx, next: Ctx -> Outcome)
    requires next(ctx).result.Ok? && parse(next(ctx).ctx.req.headers).Negotiated?
    ensures var before := next(ctx).ctx.resp.headers;
            var after := Handle(c, parse, ctx, next).ctx.resp.headers;
            && after[..|before|] == before
            && CountNamed(after, CONTENT_ENCODING) == CountNamed(before, CONTENT_ENCODING) + 1
  {
    var before := next(ctx).ctx.resp.headers;
    var after := Handle(c, parse, ctx, next).ctx.resp.headers;
    CountNamedAppend(before, [after[|before|]], CONTENT_ENCODING);
    assert [after[|before|]][1..] == [];
  }

  /**
   Placed in a chain, the middleware hands back an error of the rest of the
   chain unchanged, with the response exactly as the rest left it.
   */
  lemma ChainErrorPassesThrough(c: Compress, parse: seq<Header> -> Negotiation, rest: seq<Middleware>,
                                end: Endpoint, ctx: Ctx)
    requires Run(rest, end, ctx).result.Err?
    ensures Run([AsMiddleware(c, parse)] + rest, end, ctx) == Run(rest, end, ctx)
  {
    assert ([AsMiddleware(c, parse)] + rest)[1..] == rest;
  }

  /**
   Placed in a chain, the middleware is its `handle` with `next` being the
   rest of the chain.
   */
  lemma ChainRunsHandle(c: Compress, parse: seq<Header> -> Negotiation, rest: seq<Middleware>,
                        end: Endpoint, ctx: Ctx)
    ensures Run([AsMiddleware(c, parse)] + rest, end, ctx) == Handle(c, parse, ctx, c' => Run(rest, end, c'))
  {
    assert ([AsMiddleware(c, parse)] + rest)[1..] == rest;
  }

  /** With `Compress::default()`, the encoder gets the default quality. */
  lemma DefaultLevelReachesEncoder(parse: seq<Header> -> Negotiation, ctx: Ctx, next: Ctx -> Outcome)
    requires next(ctx).result.Ok? && parse(next(ctx).ctx.req.headers).Negotiated?
    requires parse(next(ctx).ctx.req.headers).best != Some(Identity)
    ensures Handle(DefaultCompress(), parse, ctx, next).ctx.resp.body.level == Default
  {
  }
}

=== FILE: content_type.dfy ===
/**
 The Content-Type helpers of the body crate: reading the request's
 Content-Type header into a parsed MIME record, the essence of that type
 without parameters, its charset, and checking it against an expected type.
 The MIME string parser is outside the model: callers supply it as a
 function from text to a parsed record or a complaint.
 */
module ContentType {

  import opened Errors
  import opened Http
  import opened Context

  datatype Param = Param(name: string, value: string)

  /** A parsed MIME type: `top/sub`, an optional structured-syntax `+suffix`, and parameters in order. */
  datatype Mime = Mime(top: string, sub: string, suffix: Option<string>, params: seq<Param>)

  datatype ContentType = ContentType(mime: Mime)

  /** What the MIME parser makes of a string. */
  datatype MimeParse = Parsed(mime: Mime) | Unparsable(reason: string)

  const NOT_SET: string := "Header Content-Type not set"
  const INVALID: string := "Content-Type value is invalid"
  const UNMATCHED: string := "content type unmatched. "

  /** `handle_content_type_error`: the cause, then a line saying the value is invalid. */
  function InvalidValue(cause: string): (s: Status)
    ensures s.code == BAD_REQUEST && s.expose
    ensures StartsWith(s.message, cause) && EndsWith(s.message, "\n" + INVALID)
    ensures |s.message| == |cause| + 1 + |INVALID|
  {
    Status(BAD_REQUEST, cause + "\n" + INVALID, true)
  }

  /** `ContentType::from_str`. */
  function FromStr(text: string, parse: string -> MimeParse): (r: Result<ContentType>)
    ensures r.Ok? <==> parse(text).Parsed?
    ensures r.Ok? ==> r.value.mime == parse(text).mime
    ensures r.Err? ==> r.error.code == BAD_REQUEST && r.error.expose
                       && StartsWith(r.error.message, parse(text).reason) && EndsWith(r.error.message, "\n" + INVALID)
    ensures r.Err? ==> r.error == InvalidValue(parse(text).reason)
  {
    match parse(text)
    case Parsed(m) => Ok(ContentType(m))
    case Unparsable(reason) => Err(InvalidValue(reason))
  }

  /** `ContentType::form_header_value`: the value must be text before it is parsed. */
  function FromHeaderValue(value: HeaderValue, parse: string -> MimeParse): (r: Result<ContentType>)
    ensures r.Ok? <==> ToStr(value).Some? && parse(ToStr(value).value).Parsed?
    ensures r.Ok? ==> r.value.mime == parse(ToStr(value).value).mime
    ensures ToStr(value).None? ==> r.Err? && StartsWith(r.error.message, TO_STR_ERROR)
    ensures ToStr(value).Some? && parse(ToStr(value).value).Unparsable? ==>
              r.Err? && StartsWith(r.error.message, parse(ToStr(value).value).reason)
    ensures ToStr(value).None? ==> r == Err(InvalidValue(TO_STR_ERROR))
    ensures ToStr(value).Some? && r.Err? ==> r.error == InvalidValue(parse(ToStr(value).value).reason)
    ensures r.Err? ==> r.error.code == BAD_REQUEST && r.error.expose && EndsWith(r.error.message, "\n" + INVALID)
  {
    match ToStr(value)
    case None => Err(InvalidValue(TO_STR_ERROR))
    case Some(text) => FromStr(text, parse)
  }

  /**
   `ctx.content_type()`: the first Content-Type value of the request, parsed.
   It fails with an exposed 400 when the header is missing, is not visible
   ASCII, or does not parse; only the first failure names the header as
   missing, the others say the value is invalid.
   */
  function ContentTypeOf(ctx: Ctx, parse: string -> MimeParse): (r: Result<ContentType>)
    ensures Get(ctx.req.headers, CONTENT_TYPE).None? ==> r == Err(Throw(BAD_REQUEST, NOT_SET))
    ensures r.Err? ==> r.error.code == BAD_REQUEST && r.error.expose
    ensures r.Err? && Get(ctx.req.headers, CONTENT_TYPE).Some? ==> EndsWith(r.error.message, "\n" + INVALID)
    ensures r.Ok? <==> exists i :: 0 <= i < |ctx.req.headers| && ctx.req.headers[i].name == CONTENT_TYPE
                                   && (forall j :: 0 <= j < i ==> ctx.req.headers[j].name != CONTENT_TYPE)
                                   && ToStr(ctx.req.headers[i].value).Some?
                                   && parse(ToStr(ctx.req.headers[i].value).value).Parsed?
    ensures r.Ok? ==> r.value.mime == parse(ToStr(Get(ctx.req.headers, CONTENT_TYPE).value).value).mime
  {
    FirstContentTypeParses(ctx.req.headers, parse);
    match Get(ctx.req.headers, CONTENT_TYPE)
    case None => Err(Throw(BAD_REQUEST, NOT_SET))
    case Some(value) => FromHeaderValue(value, parse)
  }

  /** The first Content-Type value converts and parses exactly when some first occurrence does. */
  lemma FirstContentTypeParses(headers: seq<Header>, parse: string -> MimeParse)
    ensures (Get(headers, CONTENT_TYPE).Some? && FromHeaderValue(Get(headers, CONTENT_TYPE).value, parse).Ok?)
            <==> exists i :: 0 <= i < |headers| && headers[i].name == CONTENT_TYPE
                             && (forall j :: 0 <= j < i ==> headers[j].name != CONTENT_TYPE)
                             && ToStr(headers[i].value).Some?
                             && parse(ToStr(headers[i].value).value).Parsed?
  {
    GetFirst(headers, CONTENT_TYPE);
  }

  // ---------------------------------------------------------------------------
  // Rendering

  function RenderParams(params: seq<Param>): string {
    if |params| == 0 then ""
    else "; " + params[0].name + "=" + params[0].value + RenderParams(params[1..])
  }

  /** The text of a MIME record: `top/sub[+suffix]` followed by `; name=value` per parameter. */
  function Render(m: Mime): string {
    m.top + "/" + m.sub + (if m.suffix.Some? then "+" + m.suffix.value else "") + RenderParams(m.params)
  }

  /** The text up to the first `;`, that is, without any parameter. */
  function BeforeParams(s: string): (r: string)
    ensures StartsWith(s, r) && ';' !in r
  {
    if |s| == 0 || s[0] == ';' then "" else [s[0]] + BeforeParams(s[1..])
  }

  // ---------------------------------------------------------------------------
  // pure_type, charset, expect

  /** `ContentType::pure_type`: the type with every parameter dropped and the suffix kept. */
  function PureType(ct: ContentType): (m: Mime)
    ensures m.params == []
    ensures m.top == ct.mime.top && m.sub == ct.mime.sub && m.suffix == ct.mime.suffix
  {
    ct.mime.(params := [])
  }

  /** The names of a well-formed type, subtype and suffix hold no `;`. */
  predicate WellFormed(m: Mime) {
    ';' !in m.top && ';' !in m.sub && (m.suffix.Some? ==> ';' !in m.suffix.value)
  }

  /** Applying `pure_type` to its own output changes nothing. */
  lemma PureTypeIdempotent(ct: ContentType)
    ensures PureType(ContentType(PureType(ct))) == PureType(ct)
  {
  }

  /**
   The text of `pure_type` is the text of the full type cut at its first
   parameter: `type/subtype[+suffix]`, nothing more.
   */
  lemma PureTypeCutsParams(ct: ContentType)
    requires WellFormed(ct.mime)
    ensures Render(PureType(ct)) == BeforeParams(Render(ct.mime))
  {
    var m := ct.mime;
    var head := m.top + "/" + m.sub + (if m.suffix.Some? then "+" + m.suffix.value else "");
    assert ';' !in head;
    assert Render(m) == head + RenderParams(m.params);
    assert Render(PureType(ct)) == head + "";
    BeforeParamsSkips(head, RenderParams(m.params));
    if |m.params| > 0 {
      assert RenderParams(m.params)[0] == ';';
    }
  }

  lemma {:induction false} BeforeParamsSkips(head: string, tail: string)
    requires ';' !in head
    requires |tail| == 0 || tail[0] == ';'
    ensures BeforeParams(head + tail) == head
    decreases |head|
  {
    if |head| == 0 {
      assert head + tail == tail;
    } else {
      assert (head + tail)[1..] == head[1..] + tail;
      BeforeParamsSkips(head[1..], tail);
    }
  }

  /** ASCII letters lower-cased, everything else as it is. */
  function LowerAscii(s: string): (r: string)
    ensures |r| == |s|
  {
    if |s| == 0 then ""
    else [if 'A' <= s[0] <= 'Z' then (s[0] as int + 32) as char else s[0]] + LowerAscii(s[1..])
  }

  /** Text without upper-case ASCII letters is its own lower-case form. */
  lemma {:induction false} LowerAsciiKeepsLower(s: string)
    requires forall i :: 0 <= i < |s| ==> !('A' <= s[i] <= 'Z')
    ensures LowerAscii(s) == s
    decreases |s|
  {
    if |s| > 0 {
      LowerAsciiKeepsLower(s[1..]);
      assert [s[0]] + s[1..] == s;
    }
  }

  /** `ContentType::charset`: the value of the first parameter named `charset`, in any case. */
  function Charset(ct: ContentType): (r: Option<string>)
    ensures r.None? <==> forall i :: 0 <= i < |ct.mime.params| ==> LowerAscii(ct.mime.params[i].name) != "charset"
    ensures r.Some? ==> exists i :: 0 <= i < |ct.mime.params| && LowerAscii(ct.mime.params[i].name) == "charset"
                                    && ct.mime.params[i].value == r.value
                                    && forall j :: 0 <= j < i ==> LowerAscii(ct.mime.params[j].name) != "charset"
  {
    FirstCharset(ct.mime.params)
  }

  function FirstCharset(params: seq<Param>): (r: Option<string>)
    ensures r.None? <==> forall i :: 0 <= i < |params| ==> LowerAscii(params[i].name) != "charset"
    ensures r.Some? ==> exists i :: 0 <= i < |params| && LowerAscii(params[i].name) == "charset"
                                    && params[i].value == r.value
                                    && forall j :: 0 <= j < i ==> LowerAscii(params[j].name) != "charset"
  {
    if |params| == 0 then None
    else if LowerAscii(params[0].name) == "charset" then Some(params[0].value)
    else
      var r := FirstCharset(params[1..]);
      if r.Some? then
        ghost var i :| 0 <= i < |params| - 1 && LowerAscii(params[1..][i].name) == "charset"
                       && params[1..][i].value == r.value
                       && forall j :: 0 <= j < i ==> LowerAscii(params[1..][j].name) != "charset";
        assert params[i + 1] == params[1..][i];
        assert forall j :: 0 <= j < i + 1 ==> LowerAscii(params[j].name) != "charset" by {
          forall j | 0 <= j < i + 1 ensures LowerAscii(params[j].name) != "charset" {
            if j > 0 { assert params[j] == params[1..][j - 1]; }
          }
        }
        r
      else
        assert forall i :: 0 <= i < |params| ==> LowerAscii(params[i].name) != "charset" by {
          forall i | 0 <= i < |params| ensures LowerAscii(params[i].name) != "charset" {
            if i > 0 { assert params[i] == params[1..][i - 1]; }
          }
        }
        r
  }

  /**
   `ContentType::expect(other)`: succeeds exactly when `pure_type` equals
   `other`; otherwise an exposed 400 naming both types.
   */
  function Expect(ct: ContentType, other: Mime): (r: Result<()>)
    ensures r.Ok? <==> PureType(ct) == other
    ensures r.Err? ==> r.error == Throw(BAD_REQUEST, UNMATCHED + Render(other) + " != " + Render(PureType(ct)))
  {
    var pure := PureType(ct);
    if pure == other then Ok(()) else Err(Throw(BAD_REQUEST, UNMATCHED + Render(other) + " != " + Render(pure)))
  }

  /**
   An expected type that carries parameters never matches, and the pure type
   of a content type is always accepted by it.
   */
  lemma ExpectIgnoresOnlyOwnParams(ct: ContentType, other: Mime)
    ensures |other.params| > 0 ==> Expect(ct, other).Err?
    ensures Expect(ct, PureType(ct)).Ok?
    ensures Expect(ct, other).Ok? ==> Expect(ContentType(other), other).Ok?
  {
  }

  // ---------------------------------------------------------------------------
  // The stated cases

  /** "application/json; charset=utf-8; FOO=BAR" has pure type "application/json". */
  lemma PureTypeJson()
    ensures var ct := ContentType(Mime("application", "json", None, [Param("charset", "utf-8"), Param("FOO", "BAR")]));
            Render(PureType(ct)) == "application/json" && Charset(ct) == Some("utf-8")
  {
    var ct := ContentType(Mime("application", "json", None, [Param("charset", "utf-8"), Param("FOO", "BAR")]));
    assert Render(PureType(ct)) == "application/json" by {
      assert RenderParams([]) == "";
    }
    assert Charset(ct) == Some("utf-8") by {
      LowerAsciiKeepsLower("charset");
    }
  }

  /** "image/svg+xml; FOO=BAR" has pure type "image/svg+xml". */
  lemma PureTypeSvg()
    ensures var ct := ContentType(Mime("image", "svg", Some("xml"), [Param("FOO", "BAR")]));
            Render(PureType(ct)) == "image/svg+xml" && Charset(ct) == None
  {
    var ct := ContentType(Mime("image", "svg", Some("xml"), [Param("FOO", "BAR")]));
    assert LowerAscii("FOO") == "foo";
  }
}

=== FILE: context.dfy ===
/**
 The per-request context a middleware receives: the request, the response
 under construction, the request-scoped key/value store, and a trace of the
 observable events the middlewares produced, in the order they happened.
 */
module Context {

  import opened Errors
  import opened Http

  /** One observable effect of a middleware or endpoint step. */
  datatype Event =
    | Marked(tag: string)
    | Stored(key: string, value: string, previous: Option<string>)
    | Loaded(key: string, found: Option<string>)
    | Wrote(content: seq<byte>)

  datatype Ctx = Ctx(req: Request, resp: Response, store: map<string, string>, trace: seq<Event>)

  /** What a middleware, endpoint or `next` hands back: its result and the context it leaves. */
  datatype Outcome = Outcome(result: Result<()>, ctx: Ctx)

  /** `ctx.load(key)`: the latest value stored under `key`, if any. */
  function Load(ctx: Ctx, key: string): (r: Option<string>)
    ensures r.Some? <==> key in ctx.store
    ensures r.Some? ==> r.value == ctx.store[key]
  {
    if key in ctx.store then Some(ctx.store[key]) else None
  }

  /**
   `ctx.store(key, value)`: records `value` under `key` and hands back the
   value it replaces, if any. Request, response and trace are untouched.
   */
  function Store(ctx: Ctx, key: string, value: string): (r: (Option<string>, Ctx))
    ensures r.0 == Load(ctx, key)
    ensures Load(r.1, key) == Some(value)
    ensures forall other :: other != key ==> Load(r.1, other) == Load(ctx, other)
    ensures r.1.store.Keys == ctx.store.Keys + {key}
    ensures r.1.req == ctx.req && r.1.resp == ctx.resp && r.1.trace == ctx.trace
  {
    (Load(ctx, key), ctx.(store := ctx.store[key := value]))
  }

  /** A second `store` under the same key hands back the first value and the second one wins. */
  lemma StoreTwice(ctx: Ctx, key: string, v1: string, v2: string)
    ensures var c1 := Store(ctx, key, v1).1;
            Store(c1, key, v2).0 == Some(v1) && Load(Store(c1, key, v2).1, key) == Some(v2)
  {
  }
}

=== FILE: errors.dfy ===
/**
 The error value threaded through every middleware: an HTTP status code, a
 message and a flag saying whether the message may be shown to the client,
 together with the `Result` type every handler returns.
 */
module Errors {

  /** HTTP status codes the modelled components raise or inspect. */
  const BAD_REQUEST: int := 400
  const IM_A_TEAPOT: int := 418

  datatype Option<+T> = None | Some(value: T)

  datatype Status = Status(code: int, message: string, expose: bool)

  /** Either a value or the `Status` that stopped the computation. */
  datatype Result<+T> = Ok(value: T) | Err(error: Status)

  /** What `throw!(code, message)` raises: an exposed status. */
  function Throw(code: int, message: string): (s: Status)
    ensures s.code == code && s.message == message
    ensures s.expose
  {
    Status(code, message, true)
  }

  /** `s` ends with `suffix`. */
  predicate EndsWith(s: string, suffix: string) {
    |suffix| <= |s| && s[|s| - |suffix|..] == suffix
  }

  /** `s` starts with `prefix`. */
  predicate StartsWith(s: string, prefix: string) {
    |prefix| <= |s| && s[..|prefix|] == prefix
  }
}

=== FILE: http.dfy ===
/**
 The slice of the HTTP request and response the modelled middlewares touch:
 byte-valued header values in an ordered multimap, and a response body that
 is either plain bytes or plain bytes wrapped by streaming encoders.
 */
module Http {

  import opened Errors

  newtype byte = b: int | 0 <= b < 256

  /** A header value is raw bytes; it need not be text. */
  type HeaderValue = seq<byte>

  /** Header names are held in the lower-case canonical form the http crate uses. */
  datatype Header = Header(name: string, value: HeaderValue)

  const CONTENT_TYPE: string := "content-type"
  const CONTENT_ENCODING: string := "content-encoding"

  /** Compression quality handed to an encoder (async_compression's `Level`). */
  datatype Level = Fastest | Best | Default | Precise(quality: nat)

  /** The streaming encoders a body can be wrapped in, as opaque tags. */
  datatype Coder = GzipCoder | ZlibCoder | BrotliCoder | ZstdCoder

  datatype Body = Plain(content: seq<byte>) | Encoded(coder: Coder, level: Level, inner: Body)

  datatype Request = Request(headers: seq<Header>)

  datatype Response = Response(headers: seq<Header>, body: Body)

  /** A byte the http crate accepts in a textual header value: visible ASCII or tab. */
  predicate VisibleAscii(b: byte) {
    b == 9 || 32 <= b < 127
  }

  predicate IsAscii(s: string) {
    forall i :: 0 <= i < |s| ==> s[i] < 128 as char
  }

  /** `HeaderValue::from_static`: the bytes of an ASCII string. */
  function FromStatic(s: string): (v: HeaderValue)
    requires IsAscii(s)
    ensures |v| == |s|
    ensures forall i :: 0 <= i < |s| ==> v[i] as int == s[i] as int
  {
    seq(|s|, i requires 0 <= i < |s| => s[i] as int as byte)
  }

  /** `HeaderValue::to_str`: the value as text, or `None` when a byte is not visible ASCII. */
  function ToStr(v: HeaderValue): (r: Option<string>)
    ensures r.Some? <==> forall i :: 0 <= i < |v| ==> VisibleAscii(v[i])
    ensures r.Some? ==> |r.value| == |v| && forall i :: 0 <= i < |v| ==> r.value[i] as int == v[i] as int
  {
    if forall i :: 0 <= i < |v| ==> VisibleAscii(v[i]) then
      Some(seq(|v|, i requires 0 <= i < |v| => v[i] as int as char))
    else
      None
  }

  /** The message of the http crate's `ToStrError`. */
  const TO_STR_ERROR: string := "failed to convert header to a str"

  /** `HeaderMap::get`: the first value stored under `name`. */
  function Get(headers: seq<Header>, name: string): (r: Option<HeaderValue>)
    ensures r.None? <==> forall i :: 0 <= i < |headers| ==> headers[i].name != name
    ensures r.Some? ==> exists i :: 0 <= i < |headers| && headers[i] == Header(name, r.value)
                                     && forall j :: 0 <= j < i ==> headers[j].name != name
  {
    if |headers| == 0 then None
    else if headers[0].name == name then Some(headers[0].value)
    else
      var r := Get(headers[1..], name);
      if r.Some? then
        ghost var i :| 0 <= i < |headers| - 1 && headers[1..][i] == Header(name, r.value)
                       && forall j :: 0 <= j < i ==> headers[1..][j].name != name;
        assert headers[i + 1] == Header(name, r.value);
        assert forall j :: 0 <= j < i + 1 ==> headers[j].name != name by {
          forall j | 0 <= j < i + 1 ensures headers[j].name != name {
            if j > 0 { assert headers[j] == headers[1..][j - 1]; }
          }
        }
        r
      else
        assert forall i :: 0 <= i < |headers| ==> headers[i].name != name by {
          forall i | 0 <= i < |headers| ensures headers[i].name != name {
            if i > 0 { assert headers[i] == headers[1..][i - 1]; }
          }
        }
        r
  }

  /** `Get` returns the value at the first position holding `name`, whichever it is. */
  lemma GetFirst(headers: seq<Header>, name: string)
    ensures forall i :: 0 <= i < |headers| && headers[i].name == name
                        && (forall j :: 0 <= j < i ==> headers[j].name != name)
                        ==> Get(headers, name) == Some(headers[i].value)
  {
    forall i | 0 <= i < |headers| && headers[i].name == name && (forall j :: 0 <= j < i ==> headers[j].name != name)
      ensures Get(headers, name) == Some(headers[i].value)
    {
      var r := Get(headers, name);
      assert r.Some?;
      var k :| 0 <= k < |headers| && headers[k] == Header(name, r.value)
               && forall j :: 0 <= j < k ==> headers[j].name != name;
      assert k == i;
    }
  }

  /** How many values are stored under `name`. */
  function CountNamed(headers: seq<Header>, name: string): nat {
    if |headers| == 0 then 0
    else (if headers[0].name == name then 1 else 0) + CountNamed(headers[1..], name)
  }

  lemma {:induction false} CountNamedAppend(a: seq<Header>, b: seq<Header>, name: string)
    ensures CountNamed(a + b, name) == CountNamed(a, name) + CountNamed(b, name)
  {
    if |a| == 0 {
      assert a + b == b;
    } else {
      assert (a + b)[1..] == a[1..] + b;
      CountNamedAppend(a[1..], b, name);
    }
  }
}

=== FILE: middleware.dfy ===
/**
 The onion middleware chain as a pure interpreter.

 A middleware is either the unit middleware `()`, a descriptor (`Gate`) of a
 middleware written as "pre-logic; next.await; post-logic" with one of the
 error policies the framework's examples use, or an arbitrary function of the
 context and `next` (the blanket implementation for `Fn` values). `next` is
 the rest of the chain, run on demand: the lambda `c => Run(rest, end, c)`.
 */
module Middleware {

  import opened Errors
  import opened Http
  import opened Context

  /** One step of a middleware's pre- or post-logic (or of an endpoint). */
  datatype Step =
    | Mark(tag: string)                   // record a marker in the trace
    | Put(key: string, value: string)     // ctx.store(key, value)
    | Fetch(key: string)                  // ctx.load(key)
    | Write(content: seq<byte>)           // replace the response body

  type Action = seq<Step>

  /** What a descriptor does with the result of `next`. */
  datatype Policy =
    | Propagate                    // `next.await?; post; Ok(())`
    | Recover(code: int)           // catch errors with this status code, re-raise the rest
    | Observe                      // `let r = next.await; post; r`
    | ShortCircuit(result: Result<()>)  // never call `next`

  datatype Middleware =
    | UnitGate
    | Gate(pre: Action, post: Action, policy: Policy)
    | Func(handle: (Ctx, Ctx -> Outcome) -> Outcome)

  datatype Endpoint =
    | UnitEnd
    | End(action: Action, result: Result<()>)
    | EndFunc(call: Ctx -> Outcome)

  /** Runs one step; every step leaves exactly one event in the trace. */
  function Exec(step: Step, ctx: Ctx): (r: Ctx)
    ensures |r.trace| == |ctx.trace| + 1 && r.trace[..|ctx.trace|] == ctx.trace
    ensures r.req == ctx.req && r.resp.headers == ctx.resp.headers
    ensures !step.Put? ==> r.store == ctx.store
    ensures !step.Write? ==> r.resp == ctx.resp
  {
    match step
    case Mark(tag) => ctx.(trace := ctx.trace + [Marked(tag)])
    case Put(key, value) =>
      var (previous, c) := Store(ctx, key, value);
      c.(trace := c.trace + [Stored(key, value, previous)])
    case Fetch(key) => ctx.(trace := ctx.trace + [Loaded(key, Load(ctx, key))])
    case Write(content) =>
      ctx.(resp := ctx.resp.(body := Plain(content)), trace := ctx.trace + [Wrote(content)])
  }

  /** Runs the steps of an action in order. */
  function Apply(action: Action, ctx: Ctx): (r: Ctx)
    ensures |r.trace| == |ctx.trace| + |action| && r.trace[..|ctx.trace|] == ctx.trace
    ensures r.req == ctx.req && r.resp.headers == ctx.resp.headers
    ensures NoWrite(action) ==> r.resp == ctx.resp
    decreases |action|
  {
    if |action| == 0 then ctx else Apply(action[1..], Exec(action[0], ctx))
  }

  /** No step of `action` replaces the response body. */
  predicate NoWrite(action: Action) {
    forall j :: 0 <= j < |action| ==> !action[j].Write?
  }

  /** Running two actions one after the other is running their concatenation. */
  lemma {:induction false} ApplyAppend(a: Action, b: Action, ctx: Ctx)
    ensures Apply(a + b, ctx) == Apply(b, Apply(a, ctx))
    decreases |a|
  {
    if |a| == 0 {
      assert a + b == b;
    } else {
      assert (a + b)[0] == a[0] && (a + b)[1..] == a[1..] + b;
      ApplyAppend(a[1..], b, Exec(a[0], ctx));
    }
  }

  /**
   The response body is the one the last `Write` of an action set: whatever
   came before it is overwritten, and the steps after it leave it alone.
   */
  lemma LastWriteWins(before: Action, content: seq<byte>, after: Action, ctx: Ctx)
    requires NoWrite(after)
    ensures Apply(before + [Write(content)] + after, ctx).resp.body == Plain(content)
  {
    ApplyAppend(before + [Write(content)], after, ctx);
    ApplyAppend(before, [Write(content)], ctx);
  }

  /** `Middleware::handle(ctx, next)`. */
  function Handle(m: Middleware, ctx: Ctx, next: Ctx -> Outcome): Outcome {
    match m
    case UnitGate => next(ctx)
    case Func(f) => f(ctx, next)
    case Gate(pre, post, policy) =>
      var c := Apply(pre, ctx);
      if policy.ShortCircuit? then Outcome(policy.result, c)
      else
        var n := next(c);
        if policy.Observe? then Outcome(n.result, Apply(post, n.ctx))
        else if n.result.Ok? || (policy.Recover? && n.result.error.code == policy.code) then
          Outcome(Ok(()), Apply(post, n.ctx))
        else n
  }

  /** `Endpoint::call(ctx)`. */
  function Call(e: Endpoint, ctx: Ctx): Outcome {
    match e
    case UnitEnd => Outcome(Ok(()), ctx)
    case End(action, result) => Outcome(result, Apply(action, ctx))
    case EndFunc(f) => f(ctx)
  }

  /** Runs `chain` (first registered outermost) around the terminal endpoint `end`. */
  function Run(chain: seq<Middleware>, end: Endpoint, ctx: Ctx): Outcome
    decreases |chain|
  {
    if |chain| == 0 then Call(end, ctx)
    else Handle(chain[0], ctx, c => Run(chain[1..], end, c))
  }

  // ---------------------------------------------------------------------------
  // Shapes of chains

  /** No middleware in `chain` is an arbitrary function. */
  predicate NoFunc(chain: seq<Middleware>) {
    forall j :: 0 <= j < |chain| ==> !chain[j].Func?
  }

  /** Every middleware is a descriptor that calls `next`. */
  predicate Layered(chain: seq<Middleware>) {
    forall j :: 0 <= j < |chain| ==> chain[j].Gate? && !chain[j].policy.ShortCircuit?
  }

  /** Every middleware is a descriptor doing `next.await?`. */
  predicate Propagating(chain: seq<Middleware>) {
    forall j :: 0 <= j < |chain| ==> chain[j].Gate? && chain[j].policy.Propagate?
  }

  function PreOf(m: Middleware): Action {
    if m.Gate? then m.pre else []
  }

  function PostOf(m: Middleware): Action {
    if m.Gate? then m.post else []
  }

  /** All pre-logic, in registration order. */
  function PreAll(chain: seq<Middleware>, ctx: Ctx): Ctx
    decreases |chain|
  {
    if |chain| == 0 then ctx else PreAll(chain[1..], Apply(PreOf(chain[0]), ctx))
  }

  /** All post-logic, innermost first. */
  function PostAll(chain: seq<Middleware>, ctx: Ctx): Ctx
    decreases |chain|
  {
    if |chain| == 0 then ctx else Apply(PostOf(chain[0]), PostAll(chain[1..], ctx))
  }

  /** The middleware as the plain function the blanket `Fn` implementation wraps. */
  function AsFunc(m: Middleware): Middleware {
    Func((c: Ctx, next: Ctx -> Outcome) => Handle(m, c, next))
  }

  /** The endpoint as the plain function the blanket `Fn` implementation wraps. */
  function AsEndFunc(e: Endpoint): Endpoint {
    EndFunc(c => Call(e, c))
  }

  // ---------------------------------------------------------------------------
  // Laws

  /**
   A functional middleware behaves as the middleware it wraps: swapping the
   middleware at position `i` for its function form changes nothing.
   */
  lemma {:induction false} FunctionalMiddleware(chain: seq<Middleware>, i: nat, end: Endpoint, ctx: Ctx)
    requires i < |chain| && NoFunc(chain[..i])
    ensures Run(chain[i := AsFunc(chain[i])], end, ctx) == Run(chain, end, ctx)
    decreases i
  {
    var swapped := chain[i := AsFunc(chain[i])];
    assert swapped[1..] == if i == 0 then chain[1..] else chain[1..][i - 1 := AsFunc(chain[1..][i - 1])];
    if i > 0 {
      assert chain[1..][..i - 1] == chain[..i][1..];
      assert swapped[0] == chain[0];
      forall c: Ctx ensures Run(swapped[1..], end, c) == Run(chain[1..], end, c) {
        FunctionalMiddleware(chain[1..], i - 1, end, c);
      }
      Congruence(chain[0], ctx, swapped[1..], end, chain[1..], end);
    }
  }

  /** A functional endpoint behaves as the endpoint it wraps. */
  lemma {:induction false} FunctionalEndpoint(chain: seq<Middleware>, end: Endpoint, ctx: Ctx)
    requires NoFunc(chain)
    ensures Run(chain, AsEndFunc(end), ctx) == Run(chain, end, ctx)
    decreases |chain|
  {
    if |chain| > 0 {
      forall c: Ctx ensures Run(chain[1..], AsEndFunc(end), c) == Run(chain[1..], end, c) {
        FunctionalEndpoint(chain[1..], end, c);
      }
      Congruence(chain[0], ctx, chain[1..], AsEndFunc(end), chain[1..], end);
    }
  }

  /** The unit middleware is transparent wherever it is inserted. */
  lemma {:induction false} UnitTransparent(chain: seq<Middleware>, i: nat, end: Endpoint, ctx: Ctx)
    requires i <= |chain| && NoFunc(chain[..i])
    ensures Run(chain[..i] + [UnitGate] + chain[i..], end, ctx) == Run(chain, end, ctx)
    decreases i
  {
    var longer := chain[..i] + [UnitGate] + chain[i..];
    if i == 0 {
      assert longer[1..] == chain;
    } else {
      assert longer[0] == chain[0];
      assert longer[1..] == chain[1..][..i - 1] + [UnitGate] + chain[1..][i - 1..];
      assert chain[1..][..i - 1] == chain[..i][1..];
      forall c: Ctx ensures Run(longer[1..], end, c) == Run(chain[1..], end, c) {
        UnitTransparent(chain[1..], i - 1, end, c);
      }
      Congruence(chain[0], ctx, longer[1..], end, chain[1..], end);
    }
  }

  /**
   Onion order on success: all pre-logic runs in registration order, the
   endpoint runs once on the context that leaves, and then all post-logic
   runs innermost first; the chain succeeds.
   */
  lemma {:induction false} OnionSuccess(chain: seq<Middleware>, end: Endpoint, ctx: Ctx)
    requires Layered(chain)
    requires Call(end, PreAll(chain, ctx)).result.Ok?
    ensures Run(chain, end, ctx) == Outcome(Ok(()), PostAll(chain, Call(end, PreAll(chain, ctx)).ctx))
    decreases |chain|
  {
    if |chain| > 0 {
      var c := Apply(chain[0].pre, ctx);
      assert PreAll(chain, ctx) == PreAll(chain[1..], c);
      assert Layered(chain[1..]);
      OnionSuccess(chain[1..], end, c);
    } else {
      var e := Call(end, ctx);
      assert e.result.value == ();
    }
  }

  /**
   With every middleware doing `next.await?`, an endpoint error comes back
   unchanged and no post-logic runs: the context is the one the endpoint left.
   */
  lemma {:induction false} OnionError(chain: seq<Middleware>, end: Endpoint, ctx: Ctx)
    requires Propagating(chain)
    requires Call(end, PreAll(chain, ctx)).result.Err?
    ensures Run(chain, end, ctx) == Call(end, PreAll(chain, ctx))
    decreases |chain|
  {
    if |chain| > 0 {
      var c := Apply(chain[0].pre, ctx);
      assert PreAll(chain, ctx) == PreAll(chain[1..], c);
      assert Propagating(chain[1..]);
      OnionError(chain[1..], end, c);
    }
  }

  /** The unit endpoint succeeds and adds nothing between pre- and post-logic. */
  lemma UnitEndpoint(chain: seq<Middleware>, ctx: Ctx)
    requires Layered(chain)
    ensures Run(chain, UnitEnd, ctx) == Outcome(Ok(()), PostAll(chain, PreAll(chain, ctx)))
  {
    OnionSuccess(chain, UnitEnd, ctx);
  }

  /**
   A middleware that does not call `next` cuts the chain: what follows it,
   endpoint included, never runs, so the outcome is that of the chain cut
   right after it around the unit endpoint.
   */
  lemma {:induction false} ShortCircuitCuts(prefix: seq<Middleware>, m: Middleware, rest: seq<Middleware>,
                                            end: Endpoint, ctx: Ctx)
    requires NoFunc(prefix) && m.Gate? && m.policy.ShortCircuit?
    ensures Run(prefix + [m] + rest, end, ctx) == Run(prefix + [m], UnitEnd, ctx)
    decreases |prefix|
  {
    var full := prefix + [m] + rest;
    var cut := prefix + [m];
    if |prefix| == 0 {
      assert full[0] == m && cut[0] == m;
    } else {
      assert full[0] == cut[0] == prefix[0];
      assert full[1..] == prefix[1..] + [m] + rest;
      assert cut[1..] == prefix[1..] + [m];
      forall c: Ctx ensures Run(full[1..], end, c) == Run(cut[1..], UnitEnd, c) {
        ShortCircuitCuts(prefix[1..], m, rest, end, c);
      }
      Congruence(prefix[0], ctx, full[1..], end, cut[1..], UnitEnd);
    }
  }

  /**
   What a short-circuiting middleware itself hands back: the chain behaves as
   if the middlewares before it ran around an endpoint that performs its
   pre-logic and returns its fixed result. Its post-logic never runs.
   */
  lemma {:induction false} ShortCircuitAnswers(prefix: seq<Middleware>, m: Middleware, rest: seq<Middleware>,
                                               end: Endpoint, ctx: Ctx)
    requires NoFunc(prefix) && m.Gate? && m.policy.ShortCircuit?
    ensures Run(prefix + [m] + rest, end, ctx) == Run(prefix, End(m.pre, m.policy.result), ctx)
    decreases |prefix|
  {
    var full := prefix + [m] + rest;
    if |prefix| == 0 {
      assert full[0] == m;
    } else {
      assert full[0] == prefix[0];
      assert full[1..] == prefix[1..] + [m] + rest;
      forall c: Ctx ensures Run(full[1..], end, c) == Run(prefix[1..], End(m.pre, m.policy.result), c) {
        ShortCircuitAnswers(prefix[1..], m, rest, end, c);
      }
      Congruence(prefix[0], ctx, full[1..], end, prefix[1..], End(m.pre, m.policy.result));
    }
  }

  /**
   Two continuations that agree on every context make a descriptor (or the
   unit middleware) produce the same outcome.
   */
  lemma Congruence(m: Middleware, ctx: Ctx, rest1: seq<Middleware>, end1: Endpoint,
                   rest2: seq<Middleware>, end2: Endpoint)
    requires !m.Func?
    requires forall c: Ctx :: Run(rest1, end1, c) == Run(rest2, end2, c)
    ensures Handle(m, ctx, c => Run(rest1, end1, c)) == Handle(m, ctx, c => Run(rest2, end2, c))
  {
  }

  /**
   A catching middleware in front of `next.await?` middlewares turns an
   endpoint error with its status code into success (then runs its
   post-logic) and re-raises any other error unchanged.
   */
  lemma RecoverSelected(pre: Action, post: Action, code: int, chain: seq<Middleware>, end: Endpoint, ctx: Ctx)
    requires Propagating(chain)
    requires Call(end, PreAll([Gate(pre, post, Recover(code))] + chain, ctx)).result.Err?
    ensures var e := Call(end, PreAll([Gate(pre, post, Recover(code))] + chain, ctx));
            var r := Run([Gate(pre, post, Recover(code))] + chain, end, ctx);
            && (e.result.error.code == code ==> r == Outcome(Ok(()), Apply(post, e.ctx)))
            && (e.result.error.code != code ==> r == e)
  {
    var full := [Gate(pre, post, Recover(code))] + chain;
    assert full[1..] == chain;
    OnionError(chain, end, Apply(pre, ctx));
  }
  // ---------------------------------------------------------------------------
  // Marker traces: the onion law stated on the observable event sequence

  predicate MarksOnly(action: Action) {
    forall i :: 0 <= i < |action| ==> action[i].Mark?
  }

  /** Every pre- and post-action of `chain` only records markers. */
  predicate MarkedChain(chain: seq<Middleware>) {
    forall j :: 0 <= j < |chain| ==> MarksOnly(PreOf(chain[j])) && MarksOnly(PostOf(chain[j]))
  }

  /** The events the markers of `action` leave, in order. */
  function MarkEvents(action: Action): seq<Event> {
    if |action| == 0 then []
    else (if action[0].Mark? then [Marked(action[0].tag)] else []) + MarkEvents(action[1..])
  }

  /** The pre-logic markers of `chain`, taken in the order of `chain`. */
  function PreEvents(chain: seq<Middleware>): seq<Event> {
    if |chain| == 0 then [] else MarkEvents(PreOf(chain[0])) + PreEvents(chain[1..])
  }

  /** The post-logic markers of `chain`, taken in the order of `chain`. */
  function PostEvents(chain: seq<Middleware>): seq<Event> {
    if |chain| == 0 then [] else MarkEvents(PostOf(chain[0])) + PostEvents(chain[1..])
  }

  function Reverse<T>(s: seq<T>): (r: seq<T>)
    ensures |r| == |s|
  {
    if |s| == 0 then [] else Reverse(s[1..]) + [s[0]]
  }

  /** `Reverse` puts the element at `i` at the mirrored position. */
  lemma {:induction false} ReverseIndex<T>(s: seq<T>)
    ensures forall i :: 0 <= i < |s| ==> Reverse(s)[i] == s[|s| - 1 - i]
    decreases |s|
  {
    if |s| > 0 {
      ReverseIndex(s[1..]);
      forall i | 0 <= i < |s| ensures Reverse(s)[i] == s[|s| - 1 - i] {
        if i < |s| - 1 {
          assert Reverse(s)[i] == Reverse(s[1..])[i];
          assert s[1..][|s| - 2 - i] == s[|s| - 1 - i];
        }
      }
    }
  }

  lemma {:induction false} ApplyMarks(action: Action, ctx: Ctx)
    requires MarksOnly(action)
    ensures Apply(action, ctx) == ctx.(trace := ctx.trace + MarkEvents(action))
    decreases |action|
  {
    if |action| > 0 {
      var c := Exec(action[0], ctx);
      assert MarksOnly(action[1..]);
      ApplyMarks(action[1..], c);
      assert ctx.trace + MarkEvents(action) == c.trace + MarkEvents(action[1..]);
    }
  }

  lemma {:induction false} PostEventsAppend(a: seq<Middleware>, b: seq<Middleware>)
    ensures PostEvents(a + b) == PostEvents(a) + PostEvents(b)
    decreases |a|
  {
    if |a| == 0 {
      assert a + b == b;
    } else {
      assert (a + b)[1..] == a[1..] + b;
      PostEventsAppend(a[1..], b);
    }
  }

  lemma {:induction false} PreAllMarks(chain: seq<Middleware>, ctx: Ctx)
    requires MarkedChain(chain)
    ensures PreAll(chain, ctx) == ctx.(trace := ctx.trace + PreEvents(chain))
    decreases |chain|
  {
    if |chain| > 0 {
      ApplyMarks(PreOf(chain[0]), ctx);
      var c := Apply(PreOf(chain[0]), ctx);
      assert MarkedChain(chain[1..]);
      PreAllMarks(chain[1..], c);
      assert ctx.trace + PreEvents(chain) == c.trace + PreEvents(chain[1..]);
    }
  }

  lemma {:induction false} PostAllMarks(chain: seq<Middleware>, ctx: Ctx)
    requires MarkedChain(chain)
    ensures PostAll(chain, ctx) == ctx.(trace := ctx.trace + PostEvents(Reverse(chain)))
    decreases |chain|
  {
    if |chain| > 0 {
      assert MarkedChain(chain[1..]);
      var inner := PostEvents(Reverse(chain[1..]));
      var own := MarkEvents(PostOf(chain[0]));
      PostAllMarks(chain[1..], ctx);
      PostAllCons(chain, ctx);
      PostEventsReverseCons(chain);
      assert ctx.trace + inner + own == ctx.trace + (inner + own);
    }
  }

  /** The outermost post-logic runs last, on what the inner post-logic left. */
  lemma PostAllCons(chain: seq<Middleware>, ctx: Ctx)
    requires |chain| > 0 && MarksOnly(PostOf(chain[0]))
    ensures var c := PostAll(chain[1..], ctx);
            PostAll(chain, ctx) == c.(trace := c.trace + MarkEvents(PostOf(chain[0])))
  {
    ApplyMarks(PostOf(chain[0]), PostAll(chain[1..], ctx));
  }

  /** Reversed, the first middleware's post markers come last. */
  lemma PostEventsReverseCons(chain: seq<Middleware>)
    requires |chain| > 0
    ensures PostEvents(Reverse(chain)) == PostEvents(Reverse(chain[1..])) + MarkEvents(PostOf(chain[0]))
  {
    PostEventsSnoc(Reverse(chain[1..]), chain[0]);
  }

  /** Appending a middleware appends its post markers. */
  lemma PostEventsSnoc(a: seq<Middleware>, m: Middleware)
    ensures PostEvents(a + [m]) == PostEvents(a) + MarkEvents(PostOf(m))
  {
    PostEventsAppend(a, [m]);
    assert [m][1..] == [];
    assert PostEvents([m]) == MarkEvents(PostOf(m)) + PostEvents([]);
  }

  /**
   The onion law on the trace: with marker-only middlewares that all call
   `next` and a succeeding endpoint, the trace gains the pre-logic markers in
   registration order, then the endpoint's, then the post-logic markers in
   reverse registration order.
   */
  lemma OnionTrace(chain: seq<Middleware>, action: Action, ctx: Ctx)
    requires Layered(chain) && MarkedChain(chain) && MarksOnly(action)
    ensures Run(chain, End(action, Ok(())), ctx)
         == Outcome(Ok(()), ctx.(trace := ctx.trace + PreEvents(chain) + MarkEvents(action)
                                                     + PostEvents(Reverse(chain))))
  {
    var end := End(action, Ok(()));
    OnionSuccess(chain, end, ctx);
    PreAllMarks(chain, ctx);
    var p := PreAll(chain, ctx);
    ApplyMarks(action, p);
    PostAllMarks(chain, Apply(action, p));
  }
}

=== FILE: middleware_examples.dfy ===
/**
 The middleware chains the framework documents, written as descriptors, and
 what running them yields.
 */
module MiddlewareExamples {

  import opened Errors
  import opened Http
  import opened Context
  import opened Middleware

  // ---------------------------------------------------------------------------
  // Three gates passing a value through the store, around an endpoint.

  /** Stores "1" under "id" (nothing there before), awaits next, then loads "id". */
  const First: Middleware := Gate([Put("id", "1")], [Fetch("id")], Propagate)
  /** Loads "1", stores "2"; after next, stores "5" over "4". */
  const Second: Middleware := Gate([Fetch("id"), Put("id", "2")], [Put("id", "5")], Propagate)
  /** Stores "3" over "2"; after next, stores "4" over "3". */
  const Third: Middleware := Gate([Put("id", "3")], [Put("id", "4")], Propagate)
  /** Loads "id" and succeeds. */
  const LoadingEnd: Endpoint := End([Fetch("id")], Ok(()))

  /**
   Every `store` hands back the value the doc example asserts, the endpoint
   sees "3", and `first` finally loads "5".
   */
  lemma StoreRoundTrip(req: Request, resp: Response)
    ensures Run([First, Second, Third], LoadingEnd, Ctx(req, resp, map[], []))
         == Outcome(Ok(()), Ctx(req, resp, map["id" := "5"], PreTrace + [Loaded("id", Some("3"))] + PostTrace))
    ensures PreTrace + [Loaded("id", Some("3"))] + PostTrace
         == [ Stored("id", "1", None), Loaded("id", Some("1")), Stored("id", "2", Some("1"))
            , Stored("id", "3", Some("2")), Loaded("id", Some("3"))
            , Stored("id", "4", Some("3")), Stored("id", "5", Some("4")), Loaded("id", Some("5")) ]
  {
    var chain := [First, Second, Third];
    var c0 := Ctx(req, resp, map[], []);
    var c3 := Ctx(req, resp, map["id" := "3"], PreTrace);
    var c4 := c3.(trace := PreTrace + [Loaded("id", Some("3"))]);
    StorePreLogic(req, resp);
    assert Call(LoadingEnd, c3) == Outcome(Ok(()), c4) by {
      ApplySteps([Fetch("id")], c3, c4);
    }
    StorePostLogic(req, resp, c4.trace);
    OnionSuccess(chain, LoadingEnd, c0);
  }

  /** The events of the three pre-logics. */
  const PreTrace: seq<Event> :=
    [Stored("id", "1", None), Loaded("id", Some("1")), Stored("id", "2", Some("1")), Stored("id", "3", Some("2"))]

  /** The events of the three post-logics. */
  const PostTrace: seq<Event> :=
    [Stored("id", "4", Some("3")), Stored("id", "5", Some("4")), Loaded("id", Some("5"))]

  lemma StorePreLogic(req: Request, resp: Response)
    ensures PreAll([First, Second, Third], Ctx(req, resp, map[], [])) == Ctx(req, resp, map["id" := "3"], PreTrace)
  {
    var c0 := Ctx(req, resp, map[], []);
    var c1 := Ctx(req, resp, map["id" := "1"], PreTrace[..1]);
    ApplySteps([Put("id", "1")], c0, c1);
    var c2 := Ctx(req, resp, map["id" := "2"], PreTrace[..3]);
    ApplySteps([Fetch("id"), Put("id", "2")], c1, c2);
    var c3 := Ctx(req, resp, map["id" := "3"], PreTrace);
    ApplySteps([Put("id", "3")], c2, c3);
    PreLayer(Third, [], c2, c3, c3);
    assert [Third] + [] == [Third];
    PreLayer(Second, [Third], c1, c2, c3);
    assert [Second] + [Third] == [Second, Third];
    PreLayer(First, [Second, Third], c0, c1, c3);
    assert [First] + [Second, Third] == [First, Second, Third];
  }

  lemma StorePostLogic(req: Request, resp: Response, t: seq<Event>)
    ensures PostAll([First, Second, Third], Ctx(req, resp, map["id" := "3"], t))
         == Ctx(req, resp, map["id" := "5"], t + PostTrace)
  {
    var c4 := Ctx(req, resp, map["id" := "3"], t);
    var c5 := Ctx(req, resp, map["id" := "4"], t + PostTrace[..1]);
    ApplySteps([Put("id", "4")], c4, c5);
    var c6 := Ctx(req, resp, map["id" := "5"], t + PostTrace[..2]);
    ApplySteps([Put("id", "5")], c5, c6);
    var c7 := Ctx(req, resp, map["id" := "5"], t + PostTrace);
    ApplySteps([Fetch("id")], c6, c7);
    PostLayer(Third, [], c4, c4, c5);
    assert [Third] + [] == [Third];
    PostLayer(Second, [Third], c4, c5, c6);
    assert [Second] + [Third] == [Second, Third];
    PostLayer(First, [Second, Third], c4, c6, c7);
    assert [First] + [Second, Third] == [First, Second, Third];
  }

  /** One layer of pre-logic, unrolled. */
  lemma PreLayer(m: Middleware, rest: seq<Middleware>, before: Ctx, mid: Ctx, inner: Ctx)
    requires Apply(PreOf(m), before) == mid && PreAll(rest, mid) == inner
    ensures PreAll([m] + rest, before) == inner
  {
    assert ([m] + rest)[1..] == rest;
  }

  /** One layer of post-logic, unrolled. */
  lemma PostLayer(m: Middleware, rest: seq<Middleware>, back: Ctx, midBack: Ctx, after: Ctx)
    requires PostAll(rest, back) == midBack && Apply(PostOf(m), midBack) == after
    ensures PostAll([m] + rest, back) == after
  {
    assert ([m] + rest)[1..] == rest;
  }

  /** `Apply` unrolled on a short literal action. */
  lemma ApplySteps(action: Action, ctx: Ctx, expected: Ctx)
    requires 1 <= |action| <= 2
    requires |action| == 1 ==> Exec(action[0], ctx) == expected
    requires |action| == 2 ==> Exec(action[1], Exec(action[0], ctx)) == expected
    ensures Apply(action, ctx) == expected
  {
    if |action| == 2 {
      assert action[1..][1..] == [];
    }
  }

  // ---------------------------------------------------------------------------
  // Markers before and after `next`.

  function Marker(name: string): Middleware {
    Gate([Mark(name + "-pre")], [Mark(name + "-post")], Propagate)
  }

  /** Three marker middlewares around a marker endpoint: the onion order. */
  lemma MarkerOrder(ctx: Ctx)
    ensures Run([Marker("M1"), Marker("M2"), Marker("M3")], End([Mark("E")], Ok(())), ctx).ctx.trace
         == ctx.trace + [ Marked("M1-pre"), Marked("M2-pre"), Marked("M3-pre"), Marked("E")
                        , Marked("M3-post"), Marked("M2-post"), Marked("M1-post") ]
  {
    MarkerOrder3("M1", "M2", "M3", ctx);
    assert "M1" + "-pre" == "M1-pre" && "M2" + "-pre" == "M2-pre" && "M3" + "-pre" == "M3-pre";
    assert "M1" + "-post" == "M1-post" && "M2" + "-post" == "M2-post" && "M3" + "-post" == "M3-post";
  }

  lemma MarkerOrder3(x: string, y: string, z: string, ctx: Ctx)
    ensures Run([Marker(x), Marker(y), Marker(z)], End([Mark("E")], Ok(())), ctx).ctx.trace
         == ctx.trace + [ Marked(x + "-pre"), Marked(y + "-pre"), Marked(z + "-pre"), Marked("E")
                        , Marked(z + "-post"), Marked(y + "-post"), Marked(x + "-post") ]
  {
    var chain := [Marker(x), Marker(y), Marker(z)];
    MarkerEvents(x);
    MarkerEvents(y);
    MarkerEvents(z);
    MarkEventsOne("E");
    PreEvents3(Marker(x), Marker(y), Marker(z));
    PostEvents3(Marker(x), Marker(y), Marker(z));
    MarkerChain(chain);
    OnionTrace(chain, [Mark("E")], ctx);
  }

  lemma MarkerChain(chain: seq<Middleware>)
    requires forall j :: 0 <= j < |chain| ==> exists name :: chain[j] == Marker(name)
    ensures Layered(chain) && MarkedChain(chain)
  {
  }

  lemma MarkerEvents(name: string)
    ensures MarkEvents(PreOf(Marker(name))) == [Marked(name + "-pre")]
    ensures MarkEvents(PostOf(Marker(name))) == [Marked(name + "-post")]
  {
    MarkEventsOne(name + "-pre");
    MarkEventsOne(name + "-post");
  }

  lemma MarkEventsOne(tag: string)
    ensures MarkEvents([Mark(tag)]) == [Marked(tag)]
  {
    assert [Mark(tag)][1..] == [];
  }

  /** The pre-logic markers of a three-element chain, spelled out. */
  lemma PreEvents3(a: Middleware, b: Middleware, c: Middleware)
    ensures PreEvents([a, b, c]) == MarkEvents(PreOf(a)) + MarkEvents(PreOf(b)) + MarkEvents(PreOf(c))
  {
    var x, y, z := MarkEvents(PreOf(a)), MarkEvents(PreOf(b)), MarkEvents(PreOf(c));
    assert PreEvents([c]) == z by {
      assert [c][1..] == [];
      assert PreEvents([c]) == z + PreEvents([]);
    }
    assert PreEvents([b, c]) == y + z by {
      assert [b, c][1..] == [c];
    }
    assert PreEvents([a, b, c]) == x + (y + z) by {
      assert [a, b, c][1..] == [b, c];
    }
    assert x + (y + z) == x + y + z;
  }

  /** The post-logic markers of a three-element chain, reversed and spelled out. */
  lemma PostEvents3(a: Middleware, b: Middleware, c: Middleware)
    ensures PostEvents(Reverse([a, b, c])) == MarkEvents(PostOf(c)) + MarkEvents(PostOf(b)) + MarkEvents(PostOf(a))
  {
    var x, y, z := MarkEvents(PostOf(a)), MarkEvents(PostOf(b)), MarkEvents(PostOf(c));
    assert [a, b, c][1..] == [b, c] && [b, c][1..] == [c] && [c][1..] == [];
    var rc := Reverse([c]);
    assert rc == [] + [c];
    var rbc := Reverse([b, c]);
    assert rbc == rc + [b];
    assert Reverse([a, b, c]) == rbc + [a];
    PostEventsSnoc([], c);
    assert PostEvents(rc) == z;
    PostEventsSnoc(rc, b);
    assert PostEvents(rbc) == z + y;
    PostEventsSnoc(rbc, a);
  }

  // ---------------------------------------------------------------------------
  // Catching an error raised by the endpoint.

  /** Recovers from a teapot error, re-raises every other one. */
  const Catch: Middleware := Gate([], [], Recover(IM_A_TEAPOT))
  /** `next.await?` and nothing else. */
  const Rethrow: Middleware := Gate([], [], Propagate)

  /** The chain catch → rethrow → endpoint raising `s`: only a teapot is swallowed. */
  lemma CatchTeapot(s: Status, ctx: Ctx)
    ensures Run([Catch, Rethrow], End([], Err(s)), ctx)
         == if s.code == IM_A_TEAPOT then Outcome(Ok(()), ctx) else Outcome(Err(s), ctx)
  {
    var chain := [Catch, Rethrow];
    assert chain[1..] == [Rethrow] && chain[1..][1..] == [];
    assert PreAll([Rethrow], ctx) == ctx;
    assert PreAll(chain, ctx) == ctx;
    assert [Catch] + [Rethrow] == chain;
    RecoverSelected([], [], IM_A_TEAPOT, [Rethrow], End([], Err(s)), ctx);
  }

  // ---------------------------------------------------------------------------
  // A logger: post-logic that runs whatever `next` returned.

  /**
   A middleware that awaits `next`, records a marker and hands back `next`'s
   result leaves that result unchanged, leaves the request, response and
   store as `next` left them, and always records its marker last.
   */
  lemma LoggerKeepsResult(tag: string, chain: seq<Middleware>, end: Endpoint, ctx: Ctx)
    ensures var r := Run([Gate([], [Mark(tag)], Observe)] + chain, end, ctx);
            var n := Run(chain, end, ctx);
            r == Outcome(n.result, n.ctx.(trace := n.ctx.trace + [Marked(tag)]))
  {
    assert ([Gate([], [Mark(tag)], Observe)] + chain)[1..] == chain;
    ApplyMarks([Mark(tag)], Run(chain, end, ctx).ctx);
  }
}
